=== FILE: README.md ===
# Recipe API: owner scoping, id filters and account rules in Dafny

This project models the logic of a small Django REST Framework recipe backend that is
the backend's own code rather than framework configuration:

- the tag and ingredient list query of `BaseAttrViewSet` (rows of the requesting user only,
  an optional `assigned_only` filter, ordered by name descending) and creation with the owner
  taken from the request;
- the recipe list query of `RecipeViewSet` (an optional `tags` and an optional `ingredients`
  filter, each a comma-separated id list read by `_params_to_ints`, then owner scoping),
  creation with the owner taken from the request, the choice of serializer by action, and
  the accept/reject branch of the image upload action;
- the user serializers: registration (password of at least five characters, never echoed
  back, email unique) and token validation, which fails with "Wrong credentials" unless the
  email/password pair authenticates and otherwise attaches the user.

Tables are sequences of immutable rows (`Models.Attr`, `Models.Recipe`); an ORM `.filter(...)`
is `Seqs.Filter` with a per-row predicate and `.order_by('-name')` is a sort with a sortedness
and permutation contract. The user table is a map from email to account, and `authenticate`
is an exact lookup in it. Query parameters are `Option<string>`: `None` when absent.

Modules, one per concept: `Wrappers` (Option, Result), `Text` (Python's `strip`, `split`,
`join`, query-parameter truthiness, name order), `Seqs` (row filtering), `IdParams`
(`_params_to_ints` and Python's `int`), `Models` (rows), `Catalog` (`BaseAttrViewSet`),
`Recipes` (`RecipeViewSet`), `Accounts` (`UserSerializer`, `AuthTokenSerializer`).

`assigned_only` keeps a tag or ingredient that any recipe in the table links to
(`recipe__isnull=False`), including recipes of other users.

## Model

| member | source | states |
|---|---|---|
| Text.Trim | app/user/serializers.py:26-30 | the stripped value a `CharField` validates has no whitespace at either end and is no longer than the input |
| Text.StripIsSlice | app/user/serializers.py:26-30 | stripping removes only characters of the stripped set, and only at the two ends: the result is a slice of the input with such characters before and after it |
| Text.StripKeepsUnpadded | app/user/serializers.py:26-30 | a value with no surrounding whitespace is validated unchanged |
| Text.Split | app/recipe/views.py:54 | `qs.split(',')` yields at least one piece and no piece contains a comma |
| Text.SplitCount | app/recipe/views.py:54 | there is exactly one more piece than there are commas |
| Text.JoinSplit | app/recipe/views.py:54 | re-joining the pieces with commas gives back the query value |
| Text.SplitJoin | app/recipe/views.py:54 | comma-free pieces joined with commas split back into the same pieces |
| IdParams.ParseInt | app/recipe/views.py:54 | `int(piece)` succeeds exactly on an optionally signed run of decimal digits after stripping `int()`'s whitespace (the `str.isspace()` set less U+001C to U+001F), and yields its value |
| IdParams.SeparatorIsNotIntSpace | app/recipe/views.py:54 | `int` strips a leading space but not U+001C, which `str.strip()` does remove: `" 5"` parses to 5 and `"\x1c5"` is rejected |
| IdParams.ParseShow | app/recipe/views.py:54 | `int(str(n)) == n` for every integer |
| IdParams.ParseAll | app/recipe/views.py:54 | the comprehension yields one integer per piece, each the parse of its piece, and fails exactly when some piece fails |
| IdParams.ParamsToInts | app/recipe/views.py:52-54 | one id per comma-separated piece (comma count + 1 of them), each the parse of its piece; fails exactly when some piece, empty ones included, is not an integer literal |
| IdParams.ParamsToIntsRoundTrip | app/recipe/views.py:52-54 | any non-empty id list written comma-separated parses back to the same list |
| IdParams.EmptyPieceRejected | app/recipe/views.py:54 | a leading, trailing or doubled comma makes the whole parse fail |
| IdParams.ParamsToIntsExample | app/recipe/views.py:52-54 | `"3,1"` parses to `[3, 1]` |
| IdParams.DoubledCommaExample | app/recipe/views.py:52-54 | `"1,,2"` is rejected |
| Seqs.Filter | app/recipe/views.py:28-29 | a filtered queryset holds exactly the rows satisfying the predicate, each with its multiplicity in the table |
| Catalog.Insert | app/recipe/views.py:29-30 | inserting into a name-descending list keeps it name-descending and adds exactly that row |
| Catalog.SortByNameDesc | app/recipe/views.py:29-30 | `order_by('-name')` returns a permutation of its rows with names never increasing |
| Catalog.ListAttrs | app/recipe/views.py:23-30 | the tag/ingredient listing is sorted by name descending and holds each table row exactly when it belongs to the requester and, if `assigned_only` is present and non-empty, some recipe links to it |
| Catalog.ListedIff | app/recipe/views.py:25-30 | a row is listed iff it is in the table, is the requester's, and (flag truthy, `"0"` included) is referenced |
| Catalog.OtherUsersRowsHidden | app/recipe/views.py:29 | another user's tag or ingredient never appears, whatever the flag |
| Catalog.UnfilteredListIsAllOwned | app/recipe/views.py:25-29 | with the flag absent or empty the listing is exactly the requester's rows |
| Catalog.AssignedOnlyNarrows | app/recipe/views.py:27-28 | turning the flag on only removes rows |
| Catalog.CreateAttr | app/recipe/views.py:19-21 | a create appends one row with a fresh id, the stripped name and owner = requester whatever the payload claims; a missing or blank name, or one containing U+0000, is rejected, with that error |
| Catalog.CreatedRowListedForCreatorOnly | app/recipe/views.py:19-30 | a newly created tag or ingredient is listed for its creator and for no other user |
| Catalog.AssignedOnlyScenario | app/recipe/tests/test_ingredients_api.py:83-99 | with `assigned_only=1`, the ingredient used by a recipe is listed and the unused one is not |
| Recipes.ListRecipes | app/recipe/views.py:56-66 | the recipe listing holds exactly the requester's recipes passing both optional id filters (at least one shared id each; AND across the two); a malformed non-empty parameter is an error instead |
| Recipes.RecipeListedIff | app/recipe/views.py:58-66 | a recipe is listed iff it is in the table, is the requester's, and passes each id filter |
| Recipes.EmptyParamsFilterNothing | app/recipe/views.py:60-66 | absent or empty `tags`/`ingredients` filter nothing: the listing is the requester's recipes |
| Recipes.TagAndIngredientFiltersCombineAsAnd | app/recipe/views.py:60-65 | with both parameters the listing is the intersection of the two single-parameter listings |
| Recipes.FilteredListWithinOwnRecipes | app/recipe/views.py:56-66 | any filtered listing is contained in the requester's unfiltered listing |
| Recipes.NoOwnRecipesListsNothing | app/recipe/views.py:66 | a user owning no recipes gets an empty listing, whatever others own |
| Recipes.CreateRecipe | app/recipe/views.py:77-79 | from the serializer's validated data, a created recipe is appended with a fresh id, the validated title and links, no image, and owner = requester whatever the payload claims |
| Recipes.CreateKeepsIdsUnique | app/recipe/views.py:77-79 | creating keeps the table's primary keys unique |
| Recipes.CreatedRecipeListedForCreatorOnly | app/recipe/views.py:66-79 | a created recipe is listed for its creator and for no other user |
| Recipes.SerializerFor | app/recipe/views.py:68-75 | `retrieve` gets the detail serializer, `upload_image` the image serializer, and every other action the default |
| Recipes.SetImage | app/recipe/views.py:89-90 | `serializer.save()` gives the recipe with that key the new image and changes nothing else: keys, owners, titles and links stay, other rows stay, unique keys stay unique |
| Recipes.UploadImage | app/recipe/views.py:81-98 | 200 with the new image iff the recipe is visible to the requester and the upload is valid; 400 and no change for an invalid upload; 404 and no change if not visible; 500 if the list parameters are malformed |
| Recipes.UploadToOthersRecipeIsNotFound | app/recipe/views.py:84 | uploading to another user's recipe is answered 404, exactly like a missing recipe, and changes nothing |
| Recipes.UploadTouchesOnlyOwnRecipe | app/recipe/views.py:84-90 | with unique keys a successful upload leaves every other user's recipe untouched |
| Accounts.Represent | app/user/serializers.py:12-16 | the serialized user has exactly the `email` and `name` fields and never `password` |
| Accounts.EmailErrors | app/user/serializers.py:10-12 | the email is rejected iff missing, blank, already registered or containing U+0000 once stripped; `unique` is reported iff already registered and `null_characters_not_allowed` iff it contains U+0000, both when both apply |
| Accounts.PasswordErrors | app/user/serializers.py:13-17 | the password is rejected iff missing, under five characters or containing U+0000; `min_length` is reported iff non-empty but under five, and `null_characters_not_allowed` iff it contains U+0000 |
| Accounts.NameErrors | app/user/serializers.py:12 | the optional name is rejected iff, once stripped, it contains U+0000, and then only with `null_characters_not_allowed` |
| Accounts.Submit | app/user/serializers.py:7-22 | registration succeeds iff email, password and name pass (including the U+0000 checks), adds exactly that account (stripped email, checked password, stripped name, active) and answers without the password; a rejection leaves the table unchanged |
| Accounts.Register | app/user/serializers.py:7-22 | registration (password as sent) succeeds iff the email is new, non-blank and free of U+0000, the password has at least five characters and no U+0000, and the name has no U+0000; it adds only that account, with the password as sent and the stripped name; a rejection creates no user and reports duplicate email and short password |
| Accounts.RegisterAsWritten | app/user/serializers.py:10-22 | registration as written: the five-character minimum and the U+0000 check apply to the stripped password, and the stripped password is stored |
| Accounts.Authenticate | app/user/serializers.py:37-41 | `authenticate` finds a user iff an active account has that email and exactly that password |
| Accounts.CredentialErrors | app/user/serializers.py:26-30 | the token request has no field errors iff the email is present, non-blank and free of U+0000 once stripped and the password is present, non-empty and free of U+0000 as sent; `null_characters_not_allowed` is reported exactly for a field containing U+0000; only required, blank and null-character errors arise here |
| Accounts.ValidateCredentials | app/user/serializers.py:24-48 | token validation succeeds iff email and password are given, contain no U+0000, and match an active account exactly (password unstripped), and then attaches that user; otherwise it reports field errors or "Wrong credentials" |
| Accounts.IssueToken | app/user/serializers.py:32-48 | a token is handed out iff the credentials pass the validation at these lines; a failure changes nothing; one token per user, reused once created, is the assumed token view (see "Left out") |
| Accounts.IssueTokenIsStable | app/user/serializers.py:32-48 | with the validation at these lines and the assumed get-or-create token view, asking again with the same credentials gives the same token and changes nothing |
| Accounts.RegisterThenAuthenticate | app/user/serializers.py:20-48 | whoever registers can obtain a token with exactly the email and password they registered with |
| Accounts.DuplicateRegistrationRejected | app/user/serializers.py:10-12 | registering an email a second time is rejected as not unique and keeps the first account, whether the password is stripped (as written) or not (corrected) |
| Accounts.ShortPasswordCreatesNoUser | app/user/serializers.py:14-17 | a password shorter than five characters, as sent or once stripped, creates no user, in the as-written and the corrected registration alike |
| Accounts.PaddedPasswordIsDifferent | app/user/serializers.py:27-30 | the token password is not stripped: `" pw "` is refused where `"pw"` is stored |
| Accounts.NullPasswordRejected | app/user/serializers.py:13-17 | a password containing U+0000 is refused at registration however long it is, and refused in a token request even when it equals the stored password |
| Accounts.StoredPasswordMustMatch | app/user/serializers.py:37-45 | a password different from the stored one gets no token |
| Accounts.AsWrittenPaddedPasswordLocksOut | app/user/serializers.py:13-30 | as written, registering with a whitespace-padded password succeeds and the same credentials are then refused |
| Accounts.PaddedExampleTrims | app/user/serializers.py:26-30 | `" abcde "` strips to `"abcde"`, so it meets the preconditions of the lock-out |

## Left out

- HTTP routing, the view-set plumbing, and the `TokenAuthentication`/`IsAuthenticated` classes: the requester is a parameter, so every operation assumes an authenticated caller; the 401 answers come from the framework.
- Catalog.ListAttrs: lists a tag or ingredient once per table row, while the ORM join at app/recipe/views.py:28 repeats it once per linking recipe.
- Recipes.ListRecipes: lists a recipe once per table row, while the joins at app/recipe/views.py:62 and 65 repeat it once per matching link; for the same reason `get_object` in the upload action could meet duplicates, which is not modelled.
- Recipes.ListRecipes: states which recipes are listed but not their order, because the order comes from the recipe model's `Meta`, which is not part of this model; the model keeps table order.
- Catalog.SortByNameDesc: names are compared by code point, the order of a binary collation; other database collations are not modelled, nor is the order among rows with equal names.
- IdParams.ParseInt: Python's `int` also accepts underscores between digits and non-ASCII digits, which the model rejects; and on Python releases with the integer-string conversion limit (4300 digits by default) `int` raises `ValueError` on longer digit strings, which the model accepts, so such a `tags` or `ingredients` value is a 500 in the program but parses in the model.
- Python's `ValueError` from `int` in the list query is not caught by the view; the model reports it as an error result (HTTP 500 in the upload action).
- Password hashing and `check_password`: passwords are stored and compared as plain strings.
- Recipes.UploadImage: promises 200 for every visible recipe with a valid upload, but when `tags` or `ingredients` make the joined queryset hold the recipe twice (for example `?tags=1,2` on a recipe linked to both tags), `get_object()` raises `MultipleObjectsReturned` and the program answers 500; join duplication is not modelled.
- Accounts.RegisterThenAuthenticate: assumes an email that `create_user`'s normalisation leaves unchanged; `create_user` lower-cases the domain of the stored email while the token request passes the email to `authenticate` as sent, so after registering `x@IBM.COM` a token request with `x@IBM.COM` is refused in the program.
- Accounts.DuplicateRegistrationRejected: assumes an email that normalisation leaves unchanged; for one it changes, such as `x@IBM.COM`, the unique check compares the email as sent, passes, and the second registration fails in `create_user` with a database integrity error (500) rather than a 400 `unique`.
- Email normalisation, the email format validator, field maximum lengths, and whether `name` is required: they come from `core.models`, which is not part of this model; `name` is treated as optional.
- Accounts.EmailErrors: the iff leaves out the email format validator and the field's maximum length from `core.models`, which is not part of this model; an email they reject is accepted here.
- Accounts.PasswordErrors: the iff leaves out the password field's maximum length (128 when the user model takes its `password` field from Django's `AbstractBaseUser`), so an over-long password passes here.
- Accounts.Submit: succeeds on some emails, passwords and names that the format validator or the maximum lengths of `core.models` would reject.
- Accounts.Register: likewise does not model the email format validator or the maximum lengths of `core.models`.
- Catalog.CreateAttr: does not model whatever maximum length `core.models` declares for `name`, since that file is not part of this model; an over-long name is accepted here.
- `is_active` is carried on each account and registration creates active accounts, as Django's `create_user` does by default.
- Token string generation: the new token is a parameter of `IssueToken`.
- Accounts.IssueToken: the token view's source is not part of this model; only its credential validation comes from app/user/serializers.py:32-48. One token per user, created on the first successful request and reused afterwards, is assumed, as DRF's `ObtainAuthToken` does with `Token.objects.get_or_create`; IssueTokenIsStable rests on that assumption.
- Image decoding and validation, file storage and the random upload path: an upload is an abstract verdict (`valid`) plus the name the file is stored under.
- Recipes.CreateRecipe: starts from the recipe serializer's validated data; stripping the title, its required, blank and U+0000 checks, the check that linked ids exist, and the 400 answers of a failing create all come from `RecipeSerializer`, which is not part of this model, so `CreateRecipe` never fails.
- Surrogate code points, which DRF's `CharField` also rejects, cannot occur in the model's strings.
- The recipe serializers' field validation and the check that linked tag and ingredient ids exist: `app/recipe/serializers.py` only declares field lists, and the recipe serializers are not part of this model; a recipe keeps only its title, its links and its image.
- Recipe retrieve, update, partial update and delete are the framework's `ModelViewSet` defaults and are not modelled beyond the owner scoping of the list query they share.

## Findings

| source | as written | input that shows it | evidently intended | confidence | as-written member | corrected member |
|---|---|---|---|---|---|---|
| app/user/serializers.py:13-17 | the `password` field `UserSerializer` derives from the model keeps the default whitespace trimming, so registration validates and stores the stripped password, while `AuthTokenSerializer` (lines 27-30) declares `trim_whitespace=False` and compares the password as sent | register `a@b.c` with password `" abcde "`, then request a token with the same email and password: registration succeeds, the token request is refused | the password accepted at registration is the one the token endpoint accepts | medium; not executed (relies on the framework default `trim_whitespace=True` for model-derived fields) | Accounts.RegisterAsWritten, Accounts.AsWrittenPaddedPasswordLocksOut | Accounts.Register, Accounts.RegisterThenAuthenticate |

=== FILE: accounts.dfy ===
/**
 * The user serializers: registration (`UserSerializer`, password at least five characters
 * and write-only, email unique) and token validation (`AuthTokenSerializer.validate`, which
 * fails with "Wrong credentials" unless the email/password pair authenticates). The user
 * table is a map from email to account; authentication is an exact lookup in it.
 */
module Accounts {
  import opened Wrappers
  import opened Text

  /** `min_length` of the password field. */
  const MinPasswordLength := 5

  /** A stored account. The password is kept as given to `create_user`; hashing is not modelled. */
  datatype Account = Account(password: string, name: string, active: bool)

  /** The user table, keyed by email. */
  type UserStore = map<string, Account>

  /** Why a field was rejected, in DRF's error codes; `NullCharacters` is
      `null_characters_not_allowed`, and `Authencation` is the code "Wrong credentials" is raised
      with, spelled as the serializer spells it. */
  datatype Code = Required | Blank | MinLength | NullCharacters | Unique | Authencation

  /** One validation error: the field it belongs to (or `non_field_errors`) and its code. */
  datatype FieldError = FieldError(field: string, code: Code)

  /** The registration body; a missing key is `None`. */
  datatype Registration = Registration(email: Option<string>, password: Option<string>, name: Option<string>)

  /** The serializer fields of `UserSerializer` and the ones only ever written. */
  const UserFields: seq<string> := ["email", "password", "name"]
  const WriteOnlyFields: set<string> := {"password"}

  /** `serializer.data` for a user: every declared field that is not write-only. */
  function Represent(email: string, account: Account): (data: map<string, string>)
    ensures data.Keys == {"email", "name"}
    ensures "password" !in data
    ensures data["email"] == email && data["name"] == account.name
  {
    map f | f in UserFields && f !in WriteOnlyFields :: if f == "email" then email else account.name
  }

  /** Field errors for the email: required, not blank once stripped; then every validator of
      the stripped value reports, so a duplicate email with U+0000 in it gets both errors. */
  function EmailErrors(store: UserStore, email: Option<string>): (errors: set<FieldError>)
    ensures errors == {} <==>
      email.Some? && Trim(email.value) != "" && Trim(email.value) !in store && !HasNull(Trim(email.value))
    ensures FieldError("email", Unique) in errors <==>
      email.Some? && Trim(email.value) != "" && Trim(email.value) in store
    ensures FieldError("email", NullCharacters) in errors <==>
      email.Some? && Trim(email.value) != "" && HasNull(Trim(email.value))
    ensures forall e :: e in errors ==> e.field == "email"
  {
    if email.None? then {FieldError("email", Required)}
    else if Trim(email.value) == "" then {FieldError("email", Blank)}
    else
      (if Trim(email.value) in store then {FieldError("email", Unique)} else {})
      + (if HasNull(Trim(email.value)) then {FieldError("email", NullCharacters)} else {})
  }

  /** The password value validators see: stripped when the field trims whitespace. */
  function CleanPassword(raw: string, trim: bool): string {
    if trim then Trim(raw) else raw
  }

  /** Field errors for the password: required, not blank, then the validators: at least five
      characters and no U+0000, both reported when both fail. */
  function PasswordErrors(password: Option<string>, trim: bool): (errors: set<FieldError>)
    ensures errors == {} <==>
      && password.Some? && |CleanPassword(password.value, trim)| >= MinPasswordLength
      && !HasNull(CleanPassword(password.value, trim))
    ensures FieldError("password", MinLength) in errors <==>
      password.Some? && 0 < |CleanPassword(password.value, trim)| < MinPasswordLength
    ensures FieldError("password", NullCharacters) in errors <==>
      password.Some? && HasNull(CleanPassword(password.value, trim))
    ensures forall e :: e in errors ==> e.field == "password"
  {
    if password.None? then {FieldError("password", Required)}
    else
      var clean := CleanPassword(password.value, trim);
      if clean == "" then {FieldError("password", Blank)}
      else
        (if |clean| < MinPasswordLength then {FieldError("password", MinLength)} else {})
        + (if HasNull(clean) then {FieldError("password", NullCharacters)} else {})
  }

  /** Field errors for the optional name: once stripped it must not contain U+0000. */
  function NameErrors(name: Option<string>): (errors: set<FieldError>)
    ensures errors == {} <==> name.None? || !HasNull(Trim(name.value))
    ensures errors != {} ==> errors == {FieldError("name", NullCharacters)}
  {
    if name.Some? && HasNull(Trim(name.value)) then {FieldError("name", NullCharacters)} else {}
  }

  /** The outcome of a registration request and the user table after it. */
  datatype Registered = Registered(store: UserStore, response: Result<map<string, string>, set<FieldError>>)

  /** Registration, with the password stripped (`trim`) or taken as sent. */
  function Submit(store: UserStore, data: Registration, trim: bool): (r: Registered)
    ensures r.response.Success? <==>
      && data.email.Some? && Trim(data.email.value) != "" && Trim(data.email.value) !in store
      && !HasNull(Trim(data.email.value))
      && data.password.Some? && |CleanPassword(data.password.value, trim)| >= MinPasswordLength
      && !HasNull(CleanPassword(data.password.value, trim))
      && (data.name.None? || !HasNull(Trim(data.name.value)))
    ensures r.response.Success? ==>
      var email := Trim(data.email.value);
      && r.store.Keys == store.Keys + {email}
      && r.store[email].password == CleanPassword(data.password.value, trim)
      && r.store[email].active
      && r.store[email].name == (if data.name.Some? then Trim(data.name.value) else "")
      && (forall e :: e in store ==> r.store[e] == store[e])
      && r.response.value == Represent(email, r.store[email])
    ensures r.response.Failure? ==> r.store == store && r.response.error != {}
    ensures r.response.Failure? ==>
      (FieldError("password", MinLength) in r.response.error <==>
         data.password.Some? && 0 < |CleanPassword(data.password.value, trim)| < MinPasswordLength)
    ensures r.response.Failure? ==>
      (FieldError("email", Unique) in r.response.error <==>
         data.email.Some? && Trim(data.email.value) != "" && Trim(data.email.value) in store)
  {
    var errors := EmailErrors(store, data.email) + PasswordErrors(data.password, trim)
                  + NameErrors(data.name);
    if errors != {} then Registered(store, Failure(errors))
    else
      var email := Trim(data.email.value);
      var account := Account(CleanPassword(data.password.value, trim),
                             if data.name.Some? then Trim(data.name.value) else "", true);
      Registered(store[email := account], Success(Represent(email, account)))
  }

  /** Registration as the serializers evidently intend it: the password is stored exactly as
      sent, the same way the token serializer reads it. */
  function Register(store: UserStore, data: Registration): (r: Registered)
    ensures r.response.Success? <==>
      && data.email.Some? && Trim(data.email.value) != "" && Trim(data.email.value) !in store
      && !HasNull(Trim(data.email.value))
      && data.password.Some? && |data.password.value| >= MinPasswordLength
      && !HasNull(data.password.value)
      && (data.name.None? || !HasNull(Trim(data.name.value)))
    ensures r.response.Success? ==>
      var email := Trim(data.email.value);
      && r.store.Keys == store.Keys + {email}
      && r.store[email].password == data.password.value
      && r.store[email].active
      && r.store[email].name == (if data.name.Some? then Trim(data.name.value) else "")
      && (forall e :: e in store ==> r.store[e] == store[e])
      && r.response.value == Represent(email, r.store[email])
    ensures r.response.Failure? ==> r.store == store && r.response.error != {}
    ensures r.response.Failure? ==>
      (FieldError("password", MinLength) in r.response.error <==>
         data.password.Some? && 0 < |data.password.value| < MinPasswordLength)
    ensures r.response.Failure? ==>
      (FieldError("email", Unique) in r.response.error <==>
         data.email.Some? && Trim(data.email.value) != "" && Trim(data.email.value) in store)
  {
    Submit(store, data, false)
  }

  /** Registration as written: the password field `UserSerializer` derives from the model keeps
      DRF's default `trim_whitespace`, so the stored password is the stripped one. */
  function RegisterAsWritten(store: UserStore, data: Registration): (r: Registered)
    ensures r.response.Success? <==>
      && data.email.Some? && Trim(data.email.value) != "" && Trim(data.email.value) !in store
      && !HasNull(Trim(data.email.value))
      && data.password.Some? && |Trim(data.password.value)| >= MinPasswordLength
      && !HasNull(Trim(data.password.value))
      && (data.name.None? || !HasNull(Trim(data.name.value)))
    ensures r.response.Success? ==>
      var email := Trim(data.email.value);
      && r.store.Keys == store.Keys + {email}
      && r.store[email].password == Trim(data.password.value)
      && (forall e :: e in store ==> r.store[e] == store[e])
    ensures r.response.Failure? ==> r.store == store
  {
    Submit(store, data, true)
  }

  /** The token request body; a missing key is `None`. */
  datatype Credentials = Credentials(email: Option<string>, password: Option<string>)

  /** The authenticated user attached to the validated attributes. */
  datatype AuthUser = AuthUser(email: string, account: Account)

  /** `serializer.validated_data` after `validate`: the fields plus `user`. */
  datatype ValidatedAttrs = ValidatedAttrs(email: string, password: string, user: AuthUser)

  /** `authenticate(username=email, password=password)`: an exact lookup of an active account. */
  function Authenticate(store: UserStore, email: string, password: string): (u: Option<AuthUser>)
    ensures u.Some? <==> email in store && store[email].password == password && store[email].active
    ensures u.Some? ==> u.value == AuthUser(email, store[email])
  {
    if email in store && store[email].password == password && store[email].active
    then Some(AuthUser(email, store[email]))
    else None
  }

  /** Field-level errors of the token request: the email is stripped before its checks, the
      password (`trim_whitespace=False`) is not; neither may contain U+0000. */
  function CredentialErrors(data: Credentials): (errors: set<FieldError>)
    ensures errors == {} <==>
      && data.email.Some? && Trim(data.email.value) != "" && !HasNull(Trim(data.email.value))
      && data.password.Some? && data.password.value != "" && !HasNull(data.password.value)
    ensures FieldError("password", Blank) in errors <==> data.password == Some("")
    ensures FieldError("email", Blank) in errors <==> data.email.Some? && Trim(data.email.value) == ""
    ensures FieldError("password", NullCharacters) in errors <==>
      data.password.Some? && HasNull(data.password.value)
    ensures FieldError("email", NullCharacters) in errors <==>
      data.email.Some? && HasNull(Trim(data.email.value))
    ensures forall e :: e in errors ==> e.code == Required || e.code == Blank || e.code == NullCharacters
  {
    (if data.email.None? then {FieldError("email", Required)}
     else if Trim(data.email.value) == "" then {FieldError("email", Blank)}
     else if HasNull(Trim(data.email.value)) then {FieldError("email", NullCharacters)} else {})
    + (if data.password.None? then {FieldError("password", Required)}
       else if data.password.value == "" then {FieldError("password", Blank)}
       else if HasNull(data.password.value) then {FieldError("password", NullCharacters)} else {})
  }

  /** `AuthTokenSerializer` validation: field checks, then `validate`, which raises
      "Wrong credentials" when nobody authenticates and otherwise attaches the user. */
  function ValidateCredentials(store: UserStore, data: Credentials)
    : (r: Result<ValidatedAttrs, set<FieldError>>)
    ensures r.Success? <==>
      && data.email.Some? && data.password.Some?
      && Trim(data.email.value) != "" && Trim(data.email.value) in store
      && store[Trim(data.email.value)].password == data.password.value
      && data.password.value != ""
      && store[Trim(data.email.value)].active
      && !HasNull(Trim(data.email.value)) && !HasNull(data.password.value)
    ensures r.Success? ==>
      && r.value.email == Trim(data.email.value)
      && r.value.password == data.password.value
      && r.value.user == AuthUser(r.value.email, store[r.value.email])
    ensures r.Failure? ==> r.error != {}
    ensures r.Failure? && data.email.Some? && Trim(data.email.value) != ""
            && !HasNull(Trim(data.email.value))
            && data.password.Some? && data.password.value != "" && !HasNull(data.password.value) ==>
      r.error == {FieldError("non_field_errors", Authencation)}
    ensures data.password.None? ==> r.Failure? && FieldError("password", Required) in r.error
  {
    var errors := CredentialErrors(data);
    if errors != {} then Failure(errors)
    else
      var email := Trim(data.email.value);
      match Authenticate(store, email, data.password.value)
      case None => Failure({FieldError("non_field_errors", Authencation)})
      case Some(user) => Success(ValidatedAttrs(email, data.password.value, user))
  }

  /** The authentication state: the user table and the one token each user holds. */
  datatype AuthState = AuthState(users: UserStore, tokens: map<string, string>)

  /** The token endpoint: validate the credentials, then hand out the user's token, creating it
      from `newToken` the first time. */
  function IssueToken(state: AuthState, data: Credentials, newToken: string)
    : (r: (AuthState, Result<string, set<FieldError>>))
    ensures r.1.Success? <==> ValidateCredentials(state.users, data).Success?
    ensures r.1.Failure? ==> r.0 == state
    ensures r.1.Success? ==>
      var email := Trim(data.email.value);
      && r.0.users == state.users
      && r.0.tokens == state.tokens[email := r.1.value]
      && r.1.value == (if email in state.tokens then state.tokens[email] else newToken)
  {
    match ValidateCredentials(state.users, data)
    case Failure(errors) => (state, Failure(errors))
    case Success(attrs) =>
      var email := attrs.user.email;
      var token := if email in state.tokens then state.tokens[email] else newToken;
      (state.(tokens := state.tokens[email := token]), Success(token))
  }

  /** A second token request with the same credentials returns the same token and changes nothing. */
  lemma IssueTokenIsStable(state: AuthState, data: Credentials, newToken: string, newToken': string)
    requires IssueToken(state, data, newToken).1.Success?
    ensures var (state', token) := IssueToken(state, data, newToken);
      IssueToken(state', data, newToken') == (state', token)
  {
    var (state', token) := IssueToken(state, data, newToken);
    var email := Trim(data.email.value);
    assert state'.tokens[email] == token.value;
    assert state'.tokens[email := token.value] == state'.tokens;
  }

  /** Whoever registers can then obtain a token with exactly the email and password they sent. */
  lemma RegisterThenAuthenticate(store: UserStore, data: Registration)
    requires Register(store, data).response.Success?
    ensures var creds := Credentials(data.email, data.password);
      && ValidateCredentials(Register(store, data).store, creds).Success?
      && ValidateCredentials(Register(store, data).store, creds).value.user.email
         == Trim(data.email.value)
  {
  }

  /** Registering the same email twice, with the password stripped or not: the second attempt
      is rejected as a duplicate and the table keeps the first account. */
  lemma DuplicateRegistrationRejected(store: UserStore, first: Registration, second: Registration,
                                      trim: bool)
    requires Submit(store, first, trim).response.Success?
    requires second.email.Some? && Trim(second.email.value) == Trim(first.email.value)
    ensures var after := Submit(store, first, trim).store;
      && Submit(after, second, trim).response.Failure?
      && FieldError("email", Unique) in Submit(after, second, trim).response.error
      && Submit(after, second, trim).store == after
  {
  }

  /** A password shorter than five characters, as sent or once stripped, creates no user. */
  lemma ShortPasswordCreatesNoUser(store: UserStore, data: Registration, trim: bool)
    requires data.password.Some? && |CleanPassword(data.password.value, trim)| < MinPasswordLength
    ensures Submit(store, data, trim).response.Failure?
    ensures Submit(store, data, trim).store == store
  {
  }

  /** The token password is compared as sent: padding it with spaces is a different credential. */
  lemma PaddedPasswordIsDifferent(store: UserStore, email: string, password: string)
    requires Trim(email) in store && store[Trim(email)].password == password
    ensures ValidateCredentials(store, Credentials(Some(email), Some(" " + password + " "))).Failure?
  {
    assert |" " + password + " "| > |password|;
  }

  /** As written, a user who registers with a password that has surrounding whitespace is
      locked out: registration succeeds but the same credentials are then refused.
      `" abcde "` is such a password (see PaddedExampleTrims). */
  lemma AsWrittenPaddedPasswordLocksOut(store: UserStore, data: Registration)
    requires data.email.Some? && Trim(data.email.value) != "" && Trim(data.email.value) !in store
    requires data.password.Some? && |Trim(data.password.value)| >= MinPasswordLength
    requires Trim(data.password.value) != data.password.value
    requires !HasNull(Trim(data.email.value)) && !HasNull(Trim(data.password.value))
    requires data.name.None? || !HasNull(Trim(data.name.value))
    ensures RegisterAsWritten(store, data).response.Success?
    ensures ValidateCredentials(RegisterAsWritten(store, data).store,
                                Credentials(data.email, data.password)).Failure?
  {
    var r := RegisterAsWritten(store, data);
    StoredPasswordMustMatch(r.store, Credentials(data.email, data.password));
  }

  /** What stripping does to the example's email and password. */
  lemma PaddedExampleTrims()
    ensures Trim("a@b.c") == "a@b.c"
    ensures Trim(" abcde ") == "abcde"
    ensures !HasNull("a@b.c") && !HasNull("abcde")
  {
    StripKeepsUnpadded("a@b.c", IsSpace);
    assert TrimStart(" abcde ", IsSpace) == "abcde ";
    assert TrimEnd("abcde ", IsSpace) == "abcde";
  }

  /** A password carrying U+0000 is refused at registration, even when long enough, and in a
      token request, even when it is the stored password. */
  lemma NullPasswordRejected(store: UserStore, email: string)
    requires Trim(email) in store && store[Trim(email)].password == "abcd\0"
    ensures FieldError("password", NullCharacters) in PasswordErrors(Some("abcde\0"), true)
    ensures FieldError("password", NullCharacters) in PasswordErrors(Some("abcde\0"), false)
    ensures ValidateCredentials(store, Credentials(Some(email), Some("abcd\0"))).Failure?
  {
    assert HasNull("abcde\0") by { assert "abcde\0"[5] == '\0'; }
    assert HasNull("abcd\0") by { assert "abcd\0"[4] == '\0'; }
    assert Trim("abcde\0") == "abcde\0" by { StripKeepsUnpadded("abcde\0", IsSpace); }
  }

  /** Validation only succeeds when the stored password equals the one sent. */
  lemma StoredPasswordMustMatch(store: UserStore, data: Credentials)
    requires data.email.Some? && data.password.Some? && Trim(data.email.value) in store
    requires store[Trim(data.email.value)].password != data.password.value
    ensures ValidateCredentials(store, data).Failure?
  {
  }
}

=== FILE: catalog.dfy ===
/**
 * `BaseAttrViewSet`, shared by the tag and ingredient endpoints: the list query
 * (owner scoping, the `assigned_only` filter, `order_by('-name')`) and creation
 * with the owner taken from the request.
 */
module Catalog {
  import opened Wrappers
  import opened Text
  import opened Seqs
  import opened Models

  /** `recipe__isnull=False`: some recipe in the store links to this row. */
  predicate Referenced(kind: Kind, a: Attr, recipes: seq<Recipe>) {
    exists i :: 0 <= i < |recipes| && a.id in Links(recipes[i], kind)
  }

  /** Names never increase along the sequence. */
  predicate SortedByNameDesc(s: seq<Attr>) {
    forall i, j :: 0 <= i < j < |s| ==> LexLe(s[j].name, s[i].name)
  }

  /** Places a row in front of the first row whose name is not larger. */
  function Insert(a: Attr, s: seq<Attr>): (r: seq<Attr>)
    requires SortedByNameDesc(s)
    ensures SortedByNameDesc(r)
    ensures multiset(r) == multiset(s) + multiset{a}
    decreases |s|
  {
    if |s| == 0 then [a]
    else if LexLe(s[0].name, a.name) then
      assert forall j :: 0 <= j < |s| ==> LexLe(s[j].name, a.name) by {
        forall j | 0 <= j < |s| ensures LexLe(s[j].name, a.name) {
          if j > 0 { LexLeTrans(s[j].name, s[0].name, a.name); }
        }
      }
      [a] + s
    else
      LexLeTotal(s[0].name, a.name);
      var rest := Insert(a, s[1..]);
      assert s == [s[0]] + s[1..];
      assert forall j :: 0 <= j < |rest| ==> LexLe(rest[j].name, s[0].name) by {
        forall j | 0 <= j < |rest| ensures LexLe(rest[j].name, s[0].name) {
          assert rest[j] in multiset(rest);
          assert rest[j] == a || rest[j] in s[1..];
        }
      }
      [s[0]] + rest
  }

  /** `order_by('-name')`: the same rows, by name from largest to smallest. */
  function SortByNameDesc(s: seq<Attr>): (r: seq<Attr>)
    ensures SortedByNameDesc(r)
    ensures multiset(r) == multiset(s)
    decreases |s|
  {
    if |s| == 0 then []
    else
      assert s == [s[0]] + s[1..];
      Insert(s[0], SortByNameDesc(s[1..]))
  }

  /** `BaseAttrViewSet.get_queryset`: with `assigned_only` truthy keep only referenced rows,
      keep only the requester's rows, and sort by name descending. */
  function ListAttrs(kind: Kind, rows: seq<Attr>, recipes: seq<Recipe>, requester: UserId,
                     assignedOnly: Option<string>): (r: seq<Attr>)
    ensures SortedByNameDesc(r)
    ensures forall a ::
              multiset(r)[a] ==
                if a.owner == requester
                   && (assignedOnly.Some? && assignedOnly.value != "" ==> Referenced(kind, a, recipes))
                then multiset(rows)[a] else 0
  {
    var candidates :=
      if Truthy(assignedOnly) then Filter(rows, (a: Attr) => Referenced(kind, a, recipes)) else rows;
    SortByNameDesc(Filter(candidates, (a: Attr) => a.owner == requester))
  }

  /** A row shows up in a listing exactly when it is in the table, belongs to the requester
      and, with `assigned_only` truthy (any non-empty value, `"0"` included), is referenced. */
  lemma ListedIff(kind: Kind, rows: seq<Attr>, recipes: seq<Recipe>, requester: UserId,
                  assignedOnly: Option<string>, a: Attr)
    ensures a in ListAttrs(kind, rows, recipes, requester, assignedOnly) <==>
      a in rows && a.owner == requester
      && (assignedOnly.Some? && assignedOnly.value != "" ==> Referenced(kind, a, recipes))
  {
    var r := ListAttrs(kind, rows, recipes, requester, assignedOnly);
    assert a in r <==> multiset(r)[a] > 0;
    assert a in rows <==> multiset(rows)[a] > 0;
  }

  /** Another user's rows never appear in a listing, whatever the query parameters. */
  lemma OtherUsersRowsHidden(kind: Kind, rows: seq<Attr>, recipes: seq<Recipe>, requester: UserId,
                             assignedOnly: Option<string>)
    ensures forall a :: a in ListAttrs(kind, rows, recipes, requester, assignedOnly) ==>
      a.owner == requester && a in rows
  {
    forall a | a in ListAttrs(kind, rows, recipes, requester, assignedOnly)
      ensures a.owner == requester && a in rows
    {
      ListedIff(kind, rows, recipes, requester, assignedOnly, a);
    }
  }

  /** Without the flag (absent or empty) the listing is all of the requester's rows, each once
      per table row. */
  lemma UnfilteredListIsAllOwned(kind: Kind, rows: seq<Attr>, recipes: seq<Recipe>,
                                 requester: UserId, assignedOnly: Option<string>)
    requires assignedOnly == None || assignedOnly == Some("")
    ensures multiset(ListAttrs(kind, rows, recipes, requester, assignedOnly))
         == multiset(Filter(rows, (a: Attr) => a.owner == requester))
  {
  }

  /** Turning the flag on can only remove rows from the listing. */
  lemma AssignedOnlyNarrows(kind: Kind, rows: seq<Attr>, recipes: seq<Recipe>,
                            requester: UserId, flag: string)
    ensures multiset(ListAttrs(kind, rows, recipes, requester, Some(flag)))
         <= multiset(ListAttrs(kind, rows, recipes, requester, None))
  {
  }

  /** Why a create request is rejected (HTTP 400). */
  datatype CreateError = NameRequired | NameBlank | NameNullCharacters

  /** The body of a create request; a `user` in the payload is not a serializer field. */
  datatype AttrPayload = AttrPayload(name: Option<string>, claimedOwner: Option<UserId>)

  /** `perform_create`: validate the name (stripped, must not be blank nor contain U+0000) and
      save the row with `user=request.user`. */
  function CreateAttr(rows: seq<Attr>, payload: AttrPayload, requester: UserId)
    : (r: Result<(seq<Attr>, Attr), CreateError>)
    ensures r.Failure? <==>
      payload.name.None? || Trim(payload.name.value) == "" || HasNull(Trim(payload.name.value))
    ensures r.Failure? ==>
      r.error == (if payload.name.None? then NameRequired
                  else if Trim(payload.name.value) == "" then NameBlank else NameNullCharacters)
    ensures r.Success? ==>
      var (rows', created) := r.value;
      && created.owner == requester
      && created.name == Trim(payload.name.value)
      && (forall i :: 0 <= i < |rows| ==> rows[i].id != created.id)
      && rows' == rows + [created]
  {
    match payload.name
    case None => Failure(NameRequired)
    case Some(raw) =>
      var name := Trim(raw);
      if name == "" then Failure(NameBlank)
      else if HasNull(name) then Failure(NameNullCharacters)
      else
        var created := Attr(FreshId(rows, (a: Attr) => a.id), requester, name);
        Success((rows + [created], created))
  }

  /** A freshly created row is listed for its creator and for nobody else. */
  lemma CreatedRowListedForCreatorOnly(kind: Kind, rows: seq<Attr>, recipes: seq<Recipe>,
                                       payload: AttrPayload, requester: UserId, other: UserId)
    requires CreateAttr(rows, payload, requester).Success?
    requires other != requester
    ensures var (rows', created) := CreateAttr(rows, payload, requester).value;
      && created in ListAttrs(kind, rows', recipes, requester, None)
      && created !in ListAttrs(kind, rows', recipes, other, None)
  {
    var (rows', created) := CreateAttr(rows, payload, requester).value;
    assert created in rows';
    ListedIff(kind, rows', recipes, requester, None, created);
    ListedIff(kind, rows', recipes, other, None, created);
  }

  /** The assigned-only ingredient scenario: with `assigned_only=1`, an ingredient used by a
      recipe is listed and one used by no recipe is not. */
  lemma AssignedOnlyScenario(apple: Attr, orange: Attr, pie: Recipe)
    requires apple == Attr(1, 7, "Apple") && orange == Attr(2, 7, "Orange")
    requires pie == Recipe(1, 7, "Orange Pie", {}, {2}, None)
    ensures orange in ListAttrs(IngredientKind, [apple, orange], [pie], 7, Some("1"))
    ensures apple !in ListAttrs(IngredientKind, [apple, orange], [pie], 7, Some("1"))
  {
    assert Referenced(IngredientKind, orange, [pie]) by {
      assert orange.id in Links([pie][0], IngredientKind);
    }
    assert !Referenced(IngredientKind, apple, [pie]);
    ListedIff(IngredientKind, [apple, orange], [pie], 7, Some("1"), orange);
    ListedIff(IngredientKind, [apple, orange], [pie], 7, Some("1"), apple);
  }
}

=== FILE: idparams.dfy ===
/**
 * `RecipeViewSet._params_to_ints`: a comma-separated query value turned into a list
 * of integer ids, one per piece, failing when any piece is not an integer literal.
 */
module IdParams {
  import opened Wrappers
  import opened Text

  predicate IsDigit(c: char) {
    '0' <= c <= '9'
  }

  predicate AllDigits(s: string) {
    forall i :: 0 <= i < |s| ==> IsDigit(s[i])
  }

  function DigitValue(c: char): (d: nat)
    requires IsDigit(c)
    ensures d < 10
  {
    (c as int) - ('0' as int)
  }

  function DigitChar(d: nat): (c: char)
    requires d < 10
    ensures IsDigit(c) && DigitValue(c) == d
  {
    (('0' as int) + d) as char
  }

  /** The value of a string of decimal digits, most significant first. */
  function DigitsValue(s: string): nat
    requires AllDigits(s)
    decreases |s|
  {
    if |s| == 0 then 0 else DigitsValue(s[..|s| - 1]) * 10 + DigitValue(s[|s| - 1])
  }

  /** The integer literals `int()` accepts once surrounding whitespace is stripped:
      an optional sign followed by at least one decimal digit. */
  predicate IsIntLiteral(t: string) {
    || (|t| > 0 && AllDigits(t))
    || (|t| > 1 && (t[0] == '-' || t[0] == '+') && AllDigits(t[1..]))
  }

  /** The whitespace `int()` strips: every `str.isspace()` character except the separators
      U+001C to U+001F. CPython maps non-ASCII whitespace to a space but passes ASCII through
      unchanged and then strips only tab, line feed, vertical tab, form feed, carriage return
      and space. */
  predicate IsIntSpace(c: char) {
    IsSpace(c) && !(28 <= c as int <= 31)
  }

  /** Python's `int(piece)`: `None` where Python raises `ValueError`. */
  function ParseInt(piece: string): (r: Option<int>)
    ensures r.Some? <==> IsIntLiteral(Strip(piece, IsIntSpace))
    ensures r.Some? && AllDigits(Strip(piece, IsIntSpace)) ==>
      r.value == DigitsValue(Strip(piece, IsIntSpace))
    ensures r.Some? && !AllDigits(Strip(piece, IsIntSpace)) ==>
      var t := Strip(piece, IsIntSpace);
      r.value == (if t[0] == '-' then -(DigitsValue(t[1..]) as int) else DigitsValue(t[1..]))
  {
    var t := Strip(piece, IsIntSpace);
    if |t| > 0 && AllDigits(t) then Some(DigitsValue(t))
    else if |t| > 1 && t[0] == '-' && AllDigits(t[1..]) then Some(-(DigitsValue(t[1..]) as int))
    else if |t| > 1 && t[0] == '+' && AllDigits(t[1..]) then Some(DigitsValue(t[1..]))
    else None
  }

  /** The decimal spelling of a natural number, without leading zeros. */
  function ShowNat(n: nat): (s: string)
    ensures |s| > 0 && AllDigits(s)
    decreases n
  {
    if n < 10 then [DigitChar(n)] else ShowNat(n / 10) + [DigitChar(n % 10)]
  }

  /** Python's `str(n)` for an integer. */
  function Show(n: int): (s: string)
    ensures |s| > 0 && (IsDigit(s[0]) || s[0] == '-') && IsDigit(s[|s| - 1])
    ensures ',' !in s
  {
    if n < 0 then "-" + ShowNat(-n) else ShowNat(n)
  }

  /** Reading back a spelled-out natural number gives the number. */
  lemma {:induction false} DigitsValueShowNat(n: nat)
    ensures DigitsValue(ShowNat(n)) == n
    decreases n
  {
    if n >= 10 {
      DigitsValueShowNat(n / 10);
      var s := ShowNat(n);
      assert s[..|s| - 1] == ShowNat(n / 10);
    }
  }

  /** `int(str(n)) == n`. */
  lemma ParseShow(n: int)
    ensures ParseInt(Show(n)) == Some(n)
  {
    var s := Show(n);
    StripKeepsUnpadded(s, IsIntSpace);
    if n < 0 {
      DigitsValueShowNat(-n);
      assert s[1..] == ShowNat(-n);
      assert !AllDigits(s) by { assert !IsDigit(s[0]); }
    } else {
      DigitsValueShowNat(n);
    }
  }

  /** `int(piece)` for every piece, or `None` as soon as one piece is rejected. */
  function ParseAll(pieces: seq<string>): (r: Option<seq<int>>)
    ensures r.Some? <==> forall i :: 0 <= i < |pieces| ==> ParseInt(pieces[i]).Some?
    ensures r.Some? ==> |r.value| == |pieces|
    ensures r.Some? ==> forall i :: 0 <= i < |pieces| ==> ParseInt(pieces[i]) == Some(r.value[i])
    decreases |pieces|
  {
    if |pieces| == 0 then Some([])
    else
      match ParseInt(pieces[0])
      case None => None
      case Some(v) =>
        match ParseAll(pieces[1..])
        case None => None
        case Some(vs) => Some([v] + vs)
  }

  /** `_params_to_ints(qs)`: `[int(str_id) for str_id in qs.split(',')]`. */
  function ParamsToInts(qs: string): (r: Option<seq<int>>)
    ensures r.Some? ==> |r.value| == |Split(qs, ',')| == multiset(qs)[','] + 1
    ensures r.Some? ==> forall i :: 0 <= i < |r.value| ==> ParseInt(Split(qs, ',')[i]) == Some(r.value[i])
    ensures r.None? <==> exists i :: 0 <= i < |Split(qs, ',')| && ParseInt(Split(qs, ',')[i]) == None
  {
    SplitCount(qs, ',');
    ParseAll(Split(qs, ','))
  }

  /** The ids as a client would send them: `','.join(str(i) for i in ids)`. */
  function ShowIds(ids: seq<int>): (pieces: seq<string>)
    ensures |pieces| == |ids|
    ensures forall i :: 0 <= i < |ids| ==> pieces[i] == Show(ids[i])
  {
    seq(|ids|, i requires 0 <= i < |ids| => Show(ids[i]))
  }

  /** Parsing the spelled-out ids gives back the ids. */
  lemma {:induction false} ParseAllShowIds(ids: seq<int>)
    ensures ParseAll(ShowIds(ids)) == Some(ids)
    decreases |ids|
  {
    if |ids| > 0 {
      var pieces := ShowIds(ids);
      assert pieces[0] == Show(ids[0]);
      ParseShow(ids[0]);
      assert pieces[1..] == ShowIds(ids[1..]);
      ParseAllShowIds(ids[1..]);
      ParseAllCons(pieces, ids[0], ids[1..]);
      assert ids == [ids[0]] + ids[1..];
    }
  }

  /** One step of ParseAll: the first piece's value in front of the values of the rest. */
  lemma ParseAllCons(pieces: seq<string>, v: int, vs: seq<int>)
    requires |pieces| > 0
    requires ParseInt(pieces[0]) == Some(v) && ParseAll(pieces[1..]) == Some(vs)
    ensures ParseAll(pieces) == Some([v] + vs)
  {
  }

  /** Every non-empty list of ids survives being written out comma-separated and parsed back. */
  lemma ParamsToIntsRoundTrip(ids: seq<int>)
    requires |ids| > 0
    ensures ParamsToInts(Join(ShowIds(ids), ',')) == Some(ids)
  {
    SplitJoin(ShowIds(ids), ',');
    ParseAllShowIds(ids);
  }

  /** An empty piece (a leading, trailing or doubled comma) makes the whole parse fail. */
  lemma EmptyPieceRejected(qs: string, i: int)
    requires 0 <= i < |Split(qs, ',')| && Split(qs, ',')[i] == ""
    ensures ParamsToInts(qs) == None
  {
    var pieces := Split(qs, ',');
    assert Strip(pieces[i], IsIntSpace) == "";
    assert ParseInt(pieces[i]) == None;
  }

  /** `int()` strips a space but not the information separator U+001C, which `str.strip()`
      does remove: `int(" 5") == 5`, while `int("\x1c5")` raises `ValueError`. */
  lemma SeparatorIsNotIntSpace()
    ensures ParseInt(" 5") == Some(5)
    ensures ParseInt([28 as char, '5']) == None
    ensures Trim([28 as char, '5']) == "5"
  {
    assert Strip(" 5", IsIntSpace) == "5";
    assert Strip([28 as char, '5'], IsIntSpace) == [28 as char, '5'];
    assert TrimStart([28 as char, '5'], IsSpace) == "5";
  }

  /** `_params_to_ints("3,1") == [3, 1]`. */
  lemma ParamsToIntsExample()
    ensures ParamsToInts("3,1") == Some([3, 1])
  {
    assert Show(3) == "3" && Show(1) == "1";
    assert ShowIds([3, 1]) == ["3", "1"];
    assert Join(["3", "1"], ',') == "3,1";
    ParamsToIntsRoundTrip([3, 1]);
  }

  /** `_params_to_ints("1,,2")` raises: the middle piece is empty. */
  lemma DoubledCommaExample()
    ensures ParamsToInts("1,,2") == None
  {
    var pieces := ["1", "", "2"];
    SplitJoin(pieces, ',');
    assert Join(pieces, ',') == "1,,2";
    EmptyPieceRejected("1,,2", 1);
  }
}

=== FILE: models.dfy ===
/**
 * The rows the views work on: tags, ingredients and recipes, each owned by one user,
 * with a recipe linking to tags and ingredients by id.
 */
module Models {
  import opened Wrappers

  /** The primary key of a user account. */
  type UserId = nat

  /** The two attribute tables that share one view set. */
  datatype Kind = TagKind | IngredientKind

  /** A tag or ingredient row: `(id, user, name)`. */
  datatype Attr = Attr(id: int, owner: UserId, name: string)

  /** A recipe row with its many-to-many links, held as sets of linked ids, and its stored image. */
  datatype Recipe = Recipe(
    id: int,
    owner: UserId,
    title: string,
    tags: set<int>,
    ingredients: set<int>,
    image: Option<string>)

  /** The ids a recipe links to in the table of the given kind. */
  function Links(r: Recipe, kind: Kind): set<int> {
    match kind
    case TagKind => r.tags
    case IngredientKind => r.ingredients
  }

  /** An id the database may allocate next: larger than the id of every row already stored. */
  function FreshId<T>(rows: seq<T>, id: T -> int): (r: int)
    ensures forall i :: 0 <= i < |rows| ==> id(rows[i]) < r
    decreases |rows|
  {
    if |rows| == 0 then 1
    else
      var rest := FreshId(rows[1..], id);
      if id(rows[0]) < rest then rest else id(rows[0]) + 1
  }

  /** The primary-key invariant of the recipe table. */
  predicate UniqueIds(rows: seq<Recipe>) {
    forall i, j :: 0 <= i < |rows| && 0 <= j < |rows| && rows[i].id == rows[j].id ==> i == j
  }
}

=== FILE: recipes.dfy ===
/**
 * `RecipeViewSet`: the list query with its optional `tags` and `ingredients` id filters,
 * owner stamping on create, serializer choice by action, and the image upload action.
 */
module Recipes {
  import opened Wrappers
  import opened Text
  import opened Seqs
  import opened IdParams
  import opened Models

  /** `filter(<links>__id__in=ids)`: the recipe links to at least one of the listed ids. */
  predicate LinksAny(ids: seq<int>, links: set<int>) {
    exists i :: 0 <= i < |ids| && ids[i] in links
  }

  /** Whether a recipe survives one optional id filter: an absent or empty parameter filters
      nothing, otherwise the parameter must parse and the recipe must link to a listed id. */
  predicate PassesIdFilter(param: Option<string>, links: set<int>) {
    !Truthy(param)
    || (ParamsToInts(param.value).Some? && LinksAny(ParamsToInts(param.value).value, links))
  }

  /** A parameter that is present, non-empty and not a comma-separated list of integers. */
  predicate Malformed(param: Option<string>) {
    Truthy(param) && ParamsToInts(param.value).None?
  }

  /** The query parameter whose parse raised `ValueError` (an unhandled error, HTTP 500). */
  datatype QueryError = BadIds(param: string)

  /** `RecipeViewSet.get_queryset`. */
  function ListRecipes(recipes: seq<Recipe>, requester: UserId,
                       tags: Option<string>, ingredients: Option<string>)
    : (r: Result<seq<Recipe>, QueryError>)
    ensures r.Failure? <==> Malformed(tags) || Malformed(ingredients)
    ensures r.Failure? ==> r.error == if Malformed(tags) then BadIds("tags") else BadIds("ingredients")
    ensures r.Success? ==> |r.value| <= |recipes|
    ensures r.Success? ==>
              forall x ::
                multiset(r.value)[x] ==
                  if x.owner == requester && PassesIdFilter(tags, x.tags)
                     && PassesIdFilter(ingredients, x.ingredients)
                  then multiset(recipes)[x] else 0
  {
    if Malformed(tags) then Failure(BadIds("tags"))
    else
      var byTags :=
        if Truthy(tags) then
          var ids := ParamsToInts(tags.value).value;
          Filter(recipes, (x: Recipe) => LinksAny(ids, x.tags))
        else recipes;
      if Malformed(ingredients) then Failure(BadIds("ingredients"))
      else
        var byIngredients :=
          if Truthy(ingredients) then
            var ids := ParamsToInts(ingredients.value).value;
            Filter(byTags, (x: Recipe) => LinksAny(ids, x.ingredients))
          else byTags;
        Success(Filter(byIngredients, (x: Recipe) => x.owner == requester))
  }

  /** A recipe is listed exactly when it is in the table, belongs to the requester and passes
      both id filters. */
  lemma RecipeListedIff(recipes: seq<Recipe>, requester: UserId,
                        tags: Option<string>, ingredients: Option<string>, x: Recipe)
    requires ListRecipes(recipes, requester, tags, ingredients).Success?
    ensures x in ListRecipes(recipes, requester, tags, ingredients).value <==>
      x in recipes && x.owner == requester
      && PassesIdFilter(tags, x.tags) && PassesIdFilter(ingredients, x.ingredients)
  {
    var r := ListRecipes(recipes, requester, tags, ingredients).value;
    assert x in r <==> multiset(r)[x] > 0;
    assert x in recipes <==> multiset(recipes)[x] > 0;
  }

  /** Absent and empty parameters filter nothing: the listing is all of the requester's recipes. */
  lemma EmptyParamsFilterNothing(recipes: seq<Recipe>, requester: UserId,
                                 tags: Option<string>, ingredients: Option<string>)
    requires tags == None || tags == Some("")
    requires ingredients == None || ingredients == Some("")
    ensures ListRecipes(recipes, requester, tags, ingredients)
         == Success(Filter(recipes, (x: Recipe) => x.owner == requester))
  {
  }

  /** With both parameters, the listing is what each parameter alone lets through, intersected. */
  lemma TagAndIngredientFiltersCombineAsAnd(recipes: seq<Recipe>, requester: UserId,
                                            tags: Option<string>, ingredients: Option<string>,
                                            x: Recipe)
    requires ListRecipes(recipes, requester, tags, ingredients).Success?
    ensures ListRecipes(recipes, requester, tags, None).Success?
    ensures ListRecipes(recipes, requester, None, ingredients).Success?
    ensures x in ListRecipes(recipes, requester, tags, ingredients).value <==>
      x in ListRecipes(recipes, requester, tags, None).value
      && x in ListRecipes(recipes, requester, None, ingredients).value
  {
    RecipeListedIff(recipes, requester, tags, ingredients, x);
    RecipeListedIff(recipes, requester, tags, None, x);
    RecipeListedIff(recipes, requester, None, ingredients, x);
  }

  /** Filtering never adds rows: every filtered listing fits in the unfiltered one. */
  lemma FilteredListWithinOwnRecipes(recipes: seq<Recipe>, requester: UserId,
                                     tags: Option<string>, ingredients: Option<string>)
    requires ListRecipes(recipes, requester, tags, ingredients).Success?
    ensures multiset(ListRecipes(recipes, requester, tags, ingredients).value)
         <= multiset(ListRecipes(recipes, requester, None, None).value)
  {
  }

  /** A user who owns no recipes gets an empty listing, whatever the other users own. */
  lemma NoOwnRecipesListsNothing(recipes: seq<Recipe>, requester: UserId,
                                 tags: Option<string>, ingredients: Option<string>)
    requires forall i :: 0 <= i < |recipes| ==> recipes[i].owner != requester
    requires ListRecipes(recipes, requester, tags, ingredients).Success?
    ensures ListRecipes(recipes, requester, tags, ingredients).value == []
  {
    var r := ListRecipes(recipes, requester, tags, ingredients).value;
    if |r| > 0 {
      RecipeListedIff(recipes, requester, tags, ingredients, r[0]);
      assert false;
    }
  }

  /** The validated data of a create request, as the recipe serializer hands it to
      `perform_create`: that serializer's checks (the title stripped, present and not blank; the
      linked ids existing) have already passed. A `user` claimed in the body is not used. */
  datatype RecipePayload = RecipePayload(
    title: string,
    tags: set<int>,
    ingredients: set<int>,
    claimedOwner: Option<UserId>)

  /** `perform_create`: the recipe is saved with `user=request.user`. */
  function CreateRecipe(recipes: seq<Recipe>, payload: RecipePayload, requester: UserId)
    : (r: (seq<Recipe>, Recipe))
    ensures r.1.owner == requester
    ensures r.1.title == payload.title && r.1.tags == payload.tags
      && r.1.ingredients == payload.ingredients && r.1.image == None
    ensures forall i :: 0 <= i < |recipes| ==> recipes[i].id != r.1.id
    ensures r.0 == recipes + [r.1]
  {
    var created := Recipe(FreshId(recipes, (x: Recipe) => x.id), requester, payload.title,
                          payload.tags, payload.ingredients, None);
    (recipes + [created], created)
  }

  /** Creating keeps the table's ids unique. */
  lemma CreateKeepsIdsUnique(recipes: seq<Recipe>, payload: RecipePayload, requester: UserId)
    requires UniqueIds(recipes)
    ensures UniqueIds(CreateRecipe(recipes, payload, requester).0)
  {
  }

  /** A created recipe is in its creator's unfiltered listing and in nobody else's. */
  lemma CreatedRecipeListedForCreatorOnly(recipes: seq<Recipe>, payload: RecipePayload,
                                          requester: UserId, other: UserId)
    requires other != requester
    ensures var (recipes', created) := CreateRecipe(recipes, payload, requester);
      && created in ListRecipes(recipes', requester, None, None).value
      && created !in ListRecipes(recipes', other, None, None).value
  {
    var (recipes', created) := CreateRecipe(recipes, payload, requester);
    assert created in recipes';
    RecipeListedIff(recipes', requester, None, None, created);
    RecipeListedIff(recipes', other, None, None, created);
  }

  /** The serializer classes the view set chooses between. */
  datatype SerializerKind = RecipeSerializer | RecipeDetailSerializer | RecipeImageSerializer

  /** `get_serializer_class`, by the name of the action being served. */
  function SerializerFor(action: string): (k: SerializerKind)
    ensures k == RecipeDetailSerializer <==> action == "retrieve"
    ensures k == RecipeImageSerializer <==> action == "upload_image"
    ensures k == RecipeSerializer <==> action != "retrieve" && action != "upload_image"
  {
    if action == "retrieve" then RecipeDetailSerializer
    else if action == "upload_image" then RecipeImageSerializer
    else RecipeSerializer
  }

  /** An uploaded file: whether the image serializer accepts it, and the name it is stored under. */
  datatype ImageUpload = ImageUpload(valid: bool, storedName: string)

  /** What the upload action answers. */
  datatype UploadBody =
    | ImageSaved(id: int, image: string)
    | InvalidImage
    | NotFound
    | ServerError

  /** The response of the upload action together with the recipe table after it. */
  datatype UploadResult = UploadResult(status: int, body: UploadBody, recipes: seq<Recipe>)

  /** Some recipe the requester can see through the list query has this primary key. */
  predicate Visible(listed: seq<Recipe>, pk: int) {
    exists i :: 0 <= i < |listed| && listed[i].id == pk
  }

  /** `serializer.save()`: the row with this primary key gets the new image. */
  function SetImage(recipes: seq<Recipe>, pk: int, image: string): (r: seq<Recipe>)
    ensures |r| == |recipes|
    ensures forall i :: 0 <= i < |recipes| ==>
              && r[i].id == recipes[i].id && r[i].owner == recipes[i].owner
              && r[i].title == recipes[i].title && r[i].tags == recipes[i].tags
              && r[i].ingredients == recipes[i].ingredients
    ensures forall i :: 0 <= i < |recipes| && recipes[i].id == pk ==> r[i].image == Some(image)
    ensures forall i :: 0 <= i < |recipes| && recipes[i].id != pk ==> r[i] == recipes[i]
    ensures UniqueIds(recipes) ==> UniqueIds(r)
  {
    seq(|recipes|, i requires 0 <= i < |recipes| =>
      if recipes[i].id == pk then recipes[i].(image := Some(image)) else recipes[i])
  }

  /** `upload_image`: `get_object()` looks the key up through the list query (404 when the
      requester cannot see it), then the image serializer either saves (200) or reports its
      errors (400) and leaves the table alone. */
  function UploadImage(recipes: seq<Recipe>, requester: UserId, pk: int,
                       tags: Option<string>, ingredients: Option<string>, upload: ImageUpload)
    : (r: UploadResult)
    ensures r.status == 200 <==>
      ListRecipes(recipes, requester, tags, ingredients).Success?
      && Visible(ListRecipes(recipes, requester, tags, ingredients).value, pk) && upload.valid
    ensures r.status == 404 <==>
      ListRecipes(recipes, requester, tags, ingredients).Success?
      && !Visible(ListRecipes(recipes, requester, tags, ingredients).value, pk)
    ensures r.status == 400 <==>
      ListRecipes(recipes, requester, tags, ingredients).Success?
      && Visible(ListRecipes(recipes, requester, tags, ingredients).value, pk) && !upload.valid
    ensures r.status == 500 <==> ListRecipes(recipes, requester, tags, ingredients).Failure?
    ensures r.status == 200 ==>
      r.body == ImageSaved(pk, upload.storedName) && |r.recipes| == |recipes|
      && forall i :: 0 <= i < |recipes| ==>
           if recipes[i].id == pk
           then r.recipes[i] == recipes[i].(image := Some(upload.storedName))
           else r.recipes[i] == recipes[i]
    ensures r.status != 200 ==> r.recipes == recipes
  {
    match ListRecipes(recipes, requester, tags, ingredients)
    case Failure(_) => UploadResult(500, ServerError, recipes)
    case Success(listed) =>
      if !Visible(listed, pk) then UploadResult(404, NotFound, recipes)
      else if !upload.valid then UploadResult(400, InvalidImage, recipes)
      else UploadResult(200, ImageSaved(pk, upload.storedName), SetImage(recipes, pk, upload.storedName))
  }

  /** Uploading to another user's recipe is answered exactly like uploading to a missing one,
      and changes nothing. */
  lemma UploadToOthersRecipeIsNotFound(recipes: seq<Recipe>, requester: UserId, pk: int,
                                       upload: ImageUpload)
    requires forall i :: 0 <= i < |recipes| && recipes[i].id == pk ==> recipes[i].owner != requester
    ensures UploadImage(recipes, requester, pk, None, None, upload).status == 404
    ensures UploadImage(recipes, requester, pk, None, None, upload).recipes == recipes
  {
    var listed := ListRecipes(recipes, requester, None, None).value;
    if Visible(listed, pk) {
      var i :| 0 <= i < |listed| && listed[i].id == pk;
      RecipeListedIff(recipes, requester, None, None, listed[i]);
      assert false;
    }
  }

  /** With unique ids, a successful upload changes only the requester's recipe: every row
      belonging to someone else is untouched. */
  lemma UploadTouchesOnlyOwnRecipe(recipes: seq<Recipe>, requester: UserId, pk: int,
                                   tags: Option<string>, ingredients: Option<string>,
                                   upload: ImageUpload)
    requires UniqueIds(recipes)
    requires UploadImage(recipes, requester, pk, tags, ingredients, upload).status == 200
    ensures var after := UploadImage(recipes, requester, pk, tags, ingredients, upload).recipes;
      forall i :: 0 <= i < |recipes| && recipes[i].owner != requester ==> after[i] == recipes[i]
  {
    var listed := ListRecipes(recipes, requester, tags, ingredients).value;
    var k :| 0 <= k < |listed| && listed[k].id == pk;
    RecipeListedIff(recipes, requester, tags, ingredients, listed[k]);
    var j :| 0 <= j < |recipes| && recipes[j] == listed[k];
    assert recipes[j].owner == requester;
  }
}

=== FILE: seqs.dfy ===
/** Row filtering: what an ORM `.filter(...)` does to a table held as a sequence. */
module Seqs {

  /** The rows satisfying `keep`; each kept row keeps its multiplicity. */
  function Filter<T(==,!new)>(s: seq<T>, keep: T -> bool): (r: seq<T>)
    ensures |r| <= |s|
    ensures forall x :: multiset(r)[x] == if keep(x) then multiset(s)[x] else 0
    ensures forall i :: 0 <= i < |r| ==> keep(r[i]) && r[i] in s
    decreases |s|
  {
    if |s| == 0 then []
    else
      assert s == [s[0]] + s[1..];
      if keep(s[0]) then [s[0]] + Filter(s[1..], keep) else Filter(s[1..], keep)
  }
}

=== FILE: text.dfy ===
/**
 * The handful of Python string operations the views and serializers rely on:
 * `str.strip()`, `str.split(',')`, the truthiness of a query parameter, and the
 * ordering a database uses to sort names.
 */
module Text {
  import opened Wrappers

  /** The characters Python's `str.isspace()` accepts, which `str.strip()` removes. */
  predicate IsSpace(c: char) {
    var n := c as int;
    (9 <= n <= 13) || (28 <= n <= 32) || n == 0x85 || n == 0xA0 || n == 0x1680
    || (0x2000 <= n <= 0x200A) || n == 0x2028 || n == 0x2029 || n == 0x202F
    || n == 0x205F || n == 0x3000
  }

  /** Leading characters that `space` accepts removed. */
  function TrimStart(s: string, space: char -> bool): (r: string)
    ensures |r| <= |s|
    ensures r == [] || !space(r[0])
    decreases |s|
  {
    if |s| > 0 && space(s[0]) then TrimStart(s[1..], space) else s
  }

  /** Trailing characters that `space` accepts removed. */
  function TrimEnd(s: string, space: char -> bool): (r: string)
    ensures |r| <= |s|
    ensures r == [] || !space(r[|r| - 1])
    ensures r == [] || r[0] == s[0]
    decreases |s|
  {
    if |s| > 0 && space(s[|s| - 1]) then TrimEnd(s[..|s| - 1], space) else s
  }

  /** Both ends stripped of the characters `space` accepts. `str.strip()` strips `IsSpace`;
      `int()` strips a slightly smaller set (see `IdParams.IsIntSpace`). StripIsSlice states
      which slice of `s` the result is. */
  function Strip(s: string, space: char -> bool): (r: string)
    ensures |r| <= |s|
    ensures r == [] || (!space(r[0]) && !space(r[|r| - 1]))
  {
    TrimEnd(TrimStart(s, space), space)
  }

  /** Python's `s.strip()`, which is what a `CharField` does to its value by default. */
  function Trim(s: string): (r: string)
    ensures |r| <= |s|
    ensures r == [] || (!IsSpace(r[0]) && !IsSpace(r[|r| - 1]))
  {
    Strip(s, IsSpace)
  }

  /** TrimStart drops a prefix made only of stripped characters. */
  lemma {:induction false} TrimStartIsSuffix(s: string, space: char -> bool)
    ensures TrimStart(s, space) == s[|s| - |TrimStart(s, space)|..]
    ensures forall k :: 0 <= k < |s| - |TrimStart(s, space)| ==> space(s[k])
    decreases |s|
  {
    if |s| > 0 && space(s[0]) {
      TrimStartIsSuffix(s[1..], space);
    }
  }

  /** TrimEnd drops a suffix made only of stripped characters. */
  lemma {:induction false} TrimEndIsPrefix(s: string, space: char -> bool)
    ensures TrimEnd(s, space) == s[..|TrimEnd(s, space)|]
    ensures forall k :: |TrimEnd(s, space)| <= k < |s| ==> space(s[k])
    decreases |s|
  {
    if |s| > 0 && space(s[|s| - 1]) {
      TrimEndIsPrefix(s[..|s| - 1], space);
    }
  }

  /** Stripping yields the slice of `s` starting at `i` with only stripped characters before
      and after it. */
  lemma StripIsSlice(s: string, space: char -> bool) returns (i: nat)
    ensures i + |Strip(s, space)| <= |s| && Strip(s, space) == s[i..i + |Strip(s, space)|]
    ensures forall k :: 0 <= k < i ==> space(s[k])
    ensures forall k :: i + |Strip(s, space)| <= k < |s| ==> space(s[k])
  {
    var t := TrimStart(s, space);
    TrimStartIsSuffix(s, space);
    TrimEndIsPrefix(t, space);
    i := |s| - |t|;
    assert Strip(s, space) == t[..|Strip(s, space)|];
  }

  /** A string that neither starts nor ends with a stripped character is left alone. */
  lemma StripKeepsUnpadded(s: string, space: char -> bool)
    requires s == [] || (!space(s[0]) && !space(s[|s| - 1]))
    ensures Strip(s, space) == s
  {
  }

  /** The value contains U+0000, which every DRF `CharField` rejects with the code
      `null_characters_not_allowed` (Django's `ProhibitNullCharactersValidator`). */
  predicate HasNull(s: string) {
    '\0' in s
  }

  /** `bool(query_params.get(key))`: the parameter is present and is not the empty string. */
  predicate Truthy(param: Option<string>) {
    param.Some? && param.value != ""
  }

  /** Python's `s.split(sep)` with an explicit separator: never empty, and an empty piece
      wherever two separators are adjacent or a separator is at either end. */
  function Split(s: string, sep: char): (r: seq<string>)
    ensures |r| >= 1
    ensures forall i :: 0 <= i < |r| ==> sep !in r[i]
    decreases |s|
  {
    if |s| == 0 then [""]
    else if s[0] == sep then [""] + Split(s[1..], sep)
    else
      var rest := Split(s[1..], sep);
      [[s[0]] + rest[0]] + rest[1..]
  }

  /** There is one more piece than there are separators. */
  lemma {:induction false} SplitCount(s: string, sep: char)
    ensures |Split(s, sep)| == multiset(s)[sep] + 1
    decreases |s|
  {
    if |s| > 0 {
      SplitCount(s[1..], sep);
      assert s == [s[0]] + s[1..];
    }
  }

  /** Python's `sep.join(pieces)`. */
  function Join(pieces: seq<string>, sep: char): string
    decreases |pieces|
  {
    if |pieces| == 0 then ""
    else if |pieces| == 1 then pieces[0]
    else pieces[0] + [sep] + Join(pieces[1..], sep)
  }

  /** Splitting and re-joining gives back the original string. */
  lemma {:induction false} JoinSplit(s: string, sep: char)
    ensures Join(Split(s, sep), sep) == s
    decreases |s|
  {
    if |s| > 0 {
      JoinSplit(s[1..], sep);
      assert s == [s[0]] + s[1..];
      if s[0] == sep {
        JoinSplitAtSeparator(s, sep);
      } else {
        JoinSplitInsidePiece(s, sep);
      }
    }
  }

  /** Inductive step of JoinSplit when the string starts with the separator. */
  lemma JoinSplitAtSeparator(s: string, sep: char)
    requires |s| > 0 && s[0] == sep
    requires Join(Split(s[1..], sep), sep) == s[1..]
    ensures Join(Split(s, sep), sep) == s
  {
    var rest := Split(s[1..], sep);
    var r := [""] + rest;
    assert Split(s, sep) == r;
    assert r[1..] == rest;
    assert Join(r, sep) == "" + [sep] + Join(rest, sep);
    assert s == [s[0]] + s[1..];
  }

  /** Inductive step of JoinSplit when the string starts inside a piece. */
  lemma JoinSplitInsidePiece(s: string, sep: char)
    requires |s| > 0 && s[0] != sep
    requires Join(Split(s[1..], sep), sep) == s[1..]
    ensures Join(Split(s, sep), sep) == s
  {
    var rest := Split(s[1..], sep);
    assert Split(s, sep) == [[s[0]] + rest[0]] + rest[1..];
    JoinExtendFirst(s[0], rest, sep);
    assert s == [s[0]] + s[1..];
  }

  /** Prefixing the first piece with a character prefixes the joined string with it. */
  lemma JoinExtendFirst(c: char, pieces: seq<string>, sep: char)
    requires |pieces| >= 1
    ensures Join([[c] + pieces[0]] + pieces[1..], sep) == [c] + Join(pieces, sep)
  {
    var r := [[c] + pieces[0]] + pieces[1..];
    if |pieces| > 1 {
      assert r[1..] == pieces[1..];
    }
  }

  /** A piece free of the separator followed by the rest of the input extends the first piece. */
  lemma {:induction false} SplitPrefix(p: string, t: string, sep: char)
    requires sep !in p
    ensures Split(p + t, sep) == [p + Split(t, sep)[0]] + Split(t, sep)[1..]
    decreases |p|
  {
    if |p| == 0 {
      assert p + t == t;
      var st := Split(t, sep);
      assert st == [st[0]] + st[1..];
      assert p + st[0] == st[0];
    } else {
      var s := p + t;
      assert s[0] == p[0];
      assert s[1..] == p[1..] + t;
      SplitPrefix(p[1..], t, sep);
      assert [p[0]] + (p[1..] + Split(t, sep)[0]) == p + Split(t, sep)[0];
    }
  }

  /** Joining pieces that contain no separator and splitting again gives back the pieces. */
  lemma {:induction false} SplitJoin(pieces: seq<string>, sep: char)
    requires |pieces| >= 1
    requires forall i :: 0 <= i < |pieces| ==> sep !in pieces[i]
    ensures Split(Join(pieces, sep), sep) == pieces
    decreases |pieces|
  {
    if |pieces| == 1 {
      SplitPrefix(pieces[0], "", sep);
      assert pieces[0] + "" == pieces[0];
    } else {
      var tail := Join(pieces[1..], sep);
      SplitJoin(pieces[1..], sep);
      assert Join(pieces, sep) == pieces[0] + ([sep] + tail);
      SplitPrefix(pieces[0], [sep] + tail, sep);
      var t := [sep] + tail;
      assert t[0] == sep && t[1..] == tail;
      assert Split(t, sep) == [""] + pieces[1..];
      assert pieces[0] + "" == pieces[0];
      assert pieces == [pieces[0]] + pieces[1..];
    }
  }

  /** Code-point lexicographic order on names, the order a database with a binary collation uses. */
  predicate LexLe(a: string, b: string)
    decreases |a|
  {
    |a| == 0 || (|b| > 0 && (a[0] < b[0] || (a[0] == b[0] && LexLe(a[1..], b[1..]))))
  }

  /** Any two names are comparable. */
  lemma {:induction false} LexLeTotal(a: string, b: string)
    ensures LexLe(a, b) || LexLe(b, a)
    decreases |a|
  {
    if |a| > 0 && |b| > 0 && a[0] == b[0] {
      LexLeTotal(a[1..], b[1..]);
    }
  }

  /** The order is transitive. */
  lemma {:induction false} LexLeTrans(a: string, b: string, c: string)
    requires LexLe(a, b) && LexLe(b, c)
    ensures LexLe(a, c)
    decreases |a|
  {
    if |a| > 0 && a[0] == b[0] && b[0] == c[0] {
      LexLeTrans(a[1..], b[1..], c[1..]);
    }
  }
}

=== FILE: wrappers.dfy ===
/** Plain optional-value and result datatypes used throughout the model. */
module Wrappers {

  /** An optional value: a query parameter that may be absent, a parse that may fail. */
  datatype Option<+T> = None | Some(value: T)

  /** The outcome of an operation that either yields a value or reports an error. */
  datatype Result<+T, +E> = Success(value: T) | Failure(error: E)
}
